=== FILE: README.md ===
# uCommander in Dafny

A model of the core of uCommander, a small Arduino library that turns a serial byte
stream into calls of registered command handlers. A command is registered with
`addCmd` and a descriptor: a string of one-character type tags (`c b B h H i I l L f`).
The host then sends a frame: one byte naming the command's index, followed by each
argument as raw little-endian bytes. `readSerial` collects bytes into a buffer of
`UCOMMANDER_BUFSIZE` bytes (50 by default)
and, once the buffer holds as many bytes as `uPacket::size()` computes from the
descriptor, calls the handler. The handler reads its arguments with
`uPacket::getArg<T>(pos)`, which copies `sizeof(T)` bytes from just past the command
byte at offset `calcOffset(pos)`. `calcOffset` is the sum, kept in a `uint8_t`, of the
widths of the fields before `pos`; `getArg` adds 1 for the command byte (uCommander.h:86), so a
field is read at that sum plus 1.

The model is split into these modules:

- `Options` (options.dfy) holds the `Option` type.
- `Bytes` (bytes.dfy) covers bytes and the little-endian, two's-complement reading that
  `memcpy` into a C integer performs.
- `Tags` (tags.dfy) covers the header's tag characters and the C types it pairs with them
  (`uCHAR_T`, ...), plus the width switch `fieldSize`.
- `Packet` (packet.dfy) covers `uPacket`:
  - `strlen` of the stored descriptor;
  - `calcOffset` and `size()` with their `uint8_t` accumulators;
  - `getArg`;
  - a host-side encoder, used to state the round trip.
- `Commander` (commander.dfy) covers the dispatcher's state, `init`, `resetBuffer`,
  `addCmd`, and one round of the `readSerial` loop (`Step`). It also has the loop as a
  fold over the bytes available (`Feed`) and as a method with a loop invariant
  (`ReadSerial`).
- `Framing` (framing.dfy) holds properties over whole streams:
  - registration order and capacity;
  - dropping of bad lead bytes;
  - exactly one dispatch per frame, and two frames dispatching twice;
  - frames split across calls;
  - the buffer bound;
  - end-to-end delivery of encoded arguments.
- `Scenarios` (scenarios.dfy) holds concrete runs: the `"BH"` command, an invalid
  index, the 0xFF byte, a lead byte equal to the command count, a signed short, an
  oversized descriptor, and a `size()` that wraps to 0.
- `Seqs` (seqs.dfy) holds sequence identities the proofs use.

Handlers are not called. Each completed frame becomes a `Dispatch` event carrying the
command index and the buffer the handler's packet view reads.

Two situations have no defined behaviour in the C code:

- a lead byte equal to the command count reads a descriptor slot `addCmd` never filled;
- a byte arriving with the buffer index at 50 is written past `_buf`.

In both, the model's frame becomes `Undefined(cause)` and stays there.

The model keeps three behaviours of the code as written, and lemmas exhibit each:

- The registration guard is `_next_cmd_index > UCOMMANDER_CMDCOUNT`, so 51 registrations succeed (`Framing.AddCmdAdmitsOnePastCapacity`, `Framing.RegistrationOrder`).
- The lead-byte guard is `(uint8_t)_buf[0] > _next_cmd_index`, so a byte equal to the count is accepted (`Framing.LeadByteEqualToCountAccepted`, `Scenarios.IndexEqualToCountTaken`).
- Nothing compares a descriptor's frame length with the buffer, and `size()` sums in a `uint8_t` (`Scenarios.OversizedDescriptorAccepted`, `Framing.OversizedFrameOverruns`, `Packet.SizeWrapsAt256`, `Scenarios.ZeroSizeOverruns`, `Scenarios.WrappedSizeStaysInBuffer`).

## Model

| member | source | states |
|---|---|---|
| Tags.FieldSize | uCommander.cpp:147-165 | every character gets width 1, 2 or 4 (the default branch gives 1) |
| Tags.FieldSizeIsDeclaredWidth | uCommander.h:44-63 | a tag's width equals `sizeof` of the C type the header's `u*_T` definitions declare for it (`Tags.DeclaredType`); a character that is not a tag gets the fallback width 1 |
| Packet.Strlen | uCommander.cpp:169 | the result counts the characters before the first `'\0'`: none of them is a terminator, and the character at the result index is one when the index is inside the string |
| Packet.WidthSum | uCommander.cpp:139-145 | the first n fields take between n and 4n bytes |
| Packet.CalcOffset | uCommander.cpp:139-145 | the loop with its `uint8_t` accumulator returns `Packet.Offset`, the offset `getArg` reads at: the sum of the widths of the fields before `pos`, modulo 256 |
| Packet.Size | uCommander.cpp:167-172 | the loop returns `Packet.PacketSize`, the length the dispatcher compares the buffer index with: 1 plus the widths of the fields before the terminator, modulo 256; without wrap it returns exactly that |
| Packet.OffsetRecurrence | uCommander.cpp:139-145 | the first field has offset 0, and each next offset is the previous one plus that field's width, modulo 256 |
| Packet.WidthSumGrows | uCommander.cpp:147-165 | each field adds at least one byte to the sum |
| Packet.OffsetsNonDecreasing | uCommander.cpp:139-145 | when the sum stays below 256, offsets increase by at least one per field |
| Packet.SizeIsOnePlusLastOffset | uCommander.cpp:167-172 | without wrap, `size()` is one more than the offset just past the last field and at least 1 plus the number of fields |
| Packet.FieldInsideFrame | uCommander.h:84-88 | without wrap, the bytes `getArg` reads for a field before the terminator lie inside the `size()` bytes of the frame |
| Packet.WidthSumOfPrefix | uCommander.cpp:139-145 | the widths of the first n fields depend only on those fields |
| Packet.WidthSumUniform | uCommander.cpp:167-172 | n copies of one tag make n times its width |
| Packet.SizeWrapsAt256 | uCommander.cpp:167-172 | 64 `'i'` fields make a 257-byte frame that `size()` reports as 1 |
| Packet.StrlenWithoutTerminator | uCommander.cpp:59-62 | for a descriptor without `'\0'`, `strlen` of the stored copy (tags then terminator) is the number of tags |
| Packet.WellTypedStrlen | uCommander.cpp:169 | `size()` counts every field of a descriptor written in the tag alphabet |
| Packet.WordRange | uCommander.h:44-63 | each type's C limits are those of a two's-complement or unsigned word of its size |
| Packet.Decode | uCommander.h:84-88 | copying `sizeof(T)` bytes into a `T` gives a value within `T`'s range |
| Packet.Encode | uCommander.h:84-88 | the host's bytes for an in-range value have the type's size, and decoding them gives the value back |
| Packet.EncodeDecode | uCommander.h:84-88 | every byte string of the type's size encodes the value it decodes to, so encoding and decoding are inverse bijections |
| Packet.GetArg | uCommander.h:84-88 | the value read for a field lies within the requested type's range |
| Packet.GetArgOfEncoded | uCommander.h:84-88 | a buffer holding the encoding of v at a field's place, just past the command byte and the field's offset, yields v |
| Packet.GetArgReadsOnlyItsBytes | uCommander.h:84-88 | `getArg` depends on exactly the `sizeof(T)` bytes from offset + 1; two buffers that agree there give the same value |
| Packet.TagType | uCommander.h:44-63 | the declared C type of a tag has the size `fieldSize` gives the tag |
| Packet.ConcatWidth | uCommander.cpp:147-165 | the host's encodings of the first n fields take exactly the bytes `fieldSize` gives them |
| Packet.EncodedFieldAt | uCommander.cpp:139-145 | in the encoded arguments, field i occupies the bytes from its offset to the next field's offset |
| Packet.FrameCarriesFields | uCommander.cpp:139-145 | a buffer that starts with an encoded frame holds every field's encoding at its place |
| Packet.ArgRoundTrip | uCommander.h:84-88 | in a buffer that holds every field at its place, `getArg` with a field's declared type returns the value that was encoded |
| Packet.FrameArgRoundTrip | uCommander.h:84-88 | after an encoded frame, followed by any bytes, `getArg` with the declared type returns each encoded value |
| Bytes.FromLittleEndian | uCommander.h:86 | an n-byte copy denotes a value below 256^n |
| Bytes.ToLittleEndian | uCommander.h:86 | the n-byte little-endian form of a value below 256^n decodes back to it |
| Bytes.LittleEndianBytesRoundTrip | uCommander.h:86 | re-encoding a decoded byte string gives the same bytes |
| Bytes.ToSigned | uCommander.h:44-63 | the two's-complement reading of an n-byte word lies in the signed range and is negative exactly when the top bit is set |
| Bytes.FromSigned | uCommander.h:44-63 | the stored word of an in-range signed value reads back as that value |
| Bytes.SignedWordRoundTrip | uCommander.h:44-63 | every n-byte word is the stored form of its signed reading |
| Commander.ResetBuffer | uCommander.cpp:98-103 | after the reset, all 50 buffer bytes are zero and the index is 0 |
| Commander.Init | uCommander.cpp:45-48 | no commands are registered and the buffer is reset |
| Commander.AddCmd | uCommander.cpp:54-69 | succeeds exactly when at most `CMDCOUNT` commands are registered; on success the descriptor takes the next index, earlier entries and the frame are kept; on failure nothing changes |
| Commander.Step | uCommander.cpp:72-91 | the table never changes; a dispatch names a registered command whose `size()` equals the index after storing the byte, and leaves the buffer reset; an undefined state stays as it is |
| Commander.Feed | uCommander.cpp:72-96 | after any input the table is unchanged, there is at most one dispatch per byte, and each dispatch names a registered command |
| Commander.ReadSerial | uCommander.cpp:72-96 | the loop over the available bytes ends in the state, and with the dispatches, of `Feed` |
| Framing.RegistrationOrder | uCommander.cpp:54-69 | registering from `init` gives the descriptors indices 0, 1, 2, ... in call order; calls 0 to `CMDCOUNT` succeed and every later one fails |
| Framing.AddCmdKeepsTableOk | uCommander.h:37-42 | with room left, adding a descriptor whose `size()` is between 1 and `BUFSIZE` keeps the table within its declared bounds and keeps the assembler invariant |
| Framing.AddCmdAdmitsOnePastCapacity | uCommander.cpp:55-56 | with `CMDCOUNT` commands registered, one more registration succeeds and gets index `CMDCOUNT`, outside the table's declared bounds |
| Framing.BadLeadByteDiscarded | uCommander.cpp:77-83 | a lead byte that is 0xFF or above the command count resets the buffer without a dispatch |
| Framing.LeadByteEqualToCountAccepted | uCommander.cpp:80-84 | a lead byte equal to the command count is not dropped; it selects an unregistered slot |
| Framing.FitsHasSize | uCommander.cpp:167-172 | a frame whose exact length fits the buffer has `size()` equal to that length, so its `size()` fits too |
| Framing.StepPreservesInv | uCommander.cpp:72-91 | when every registered `size()` is between 1 and `BUFSIZE`, any byte except one that selects an unregistered slot keeps the assembler invariant: index inside the buffer, zeros past it, a started frame names a command and is shorter than its size |
| Framing.StepDispatchesAtSize | uCommander.cpp:86-90 | under the invariant, a byte dispatches exactly when it is not dropped, the lead byte names a command, and that command's `size()` equals the index after storing; the dispatch carries the lead byte and the updated buffer |
| Framing.ResetIsUnique | uCommander.cpp:98-103 | every reset state is the one `resetBuffer` produces |
| Framing.FeedSnoc | uCommander.cpp:73-91 | feeding one more byte is one more loop round after the earlier ones |
| Framing.FeedAppend | uCommander.cpp:72-96 | two calls on consecutive chunks do what one call on their concatenation does; partial frames carry over, as the code has no timeout (line 94) |
| Framing.FeedNeverOverruns | uCommander.cpp:74 | when every registered `size()` is between 1 and `BUFSIZE` (whatever the exact frame length), the buffer is never written past its end; unless a lead byte selected an unregistered slot, the invariant holds after any input |
| Framing.LeadByteStartsFrame | uCommander.cpp:75-86 | from a reset, a registered lead byte starts a frame, or dispatches at once when `size()` is 1 |
| Framing.StepOnStartedFrame | uCommander.cpp:74-90 | the next byte of a started frame is stored at the index, and dispatches when the count reaches `size()` |
| Framing.Accumulate | uCommander.cpp:73-91 | bytes of a started frame accumulate without dispatch while the count stays below `size()`, or for ever when `size()` wrapped to 0 |
| Framing.FramePrefixHeld | uCommander.cpp:73-91 | from a reset, the first n bytes of a frame whose `size()` is above n, or wrapped to 0, are held in the buffer without dispatch |
| Framing.OneByteFrame | uCommander.cpp:75-90 | a command without fields dispatches on its lead byte alone |
| Framing.LastByteDispatches | uCommander.cpp:86-90 | the last byte of a longer frame dispatches once and resets the buffer |
| Framing.FeedOneFrame | uCommander.cpp:72-96 | from a reset, the `size()` bytes of a registered command's frame dispatch it exactly once, with the frame followed by zeros as the buffer, and leave the buffer reset |
| Framing.FeedTwoFrames | uCommander.cpp:72-96 | two complete frames in a row dispatch twice, in order, each with its own bytes |
| Framing.FrameSplitAcrossCalls | uCommander.cpp:72-96 | a frame cut short by the end of input stays in the buffer, and the next call completes it with one dispatch |
| Framing.BadByteThenFrame | uCommander.cpp:80-83 | a dropped lead byte in front of any input leaves the outcome of that input unchanged |
| Framing.OversizedFrameOverruns | uCommander.cpp:74 | from a reset, a command whose `size()` exceeds `BUFSIZE`, or wraps to 0 and so never equals the index, overruns the buffer on its 51st byte without dispatching |
| Framing.EncodedFrameDelivered | uCommander.cpp:72-91 | end to end: a frame the host encodes for a registered, well-typed command that fits the buffer is dispatched once, and `getArg` with each field's declared type returns the encoded values |
| Scenarios.SizeOfBH | uCommander.cpp:167-172 | `"BH"` frames are 4 bytes, with field offsets 0 and 1 |
| Scenarios.DispatchBH | uCommander.cpp:72-91 | with `"BH"` registered as command 0, the bytes 00 07 10 27 dispatch it once and reset the buffer |
| Scenarios.DecodeBH | uCommander.h:84-88 | that dispatch's fields read as `uint8_t` 7 and `uint16_t` 10000 |
| Scenarios.InvalidIndexDropped | uCommander.cpp:80-83 | with two commands registered, the byte 0x05 dispatches nothing and leaves the buffer reset |
| Scenarios.SentinelNeverDispatches | uCommander.cpp:77-83 | the byte 0xFF dispatches nothing and leaves the buffer reset |
| Scenarios.IndexEqualToCountTaken | uCommander.cpp:80-84 | with two commands registered, the byte 0x02 is taken as an index and reaches the unregistered slot |
| Scenarios.SignedShortRoundTrip | uCommander.h:50-51 | an `'h'` field holding -1200 is sent as 50 FB and decodes back to -1200 |
| Scenarios.OversizedDescriptorAccepted | uCommander.cpp:54-69 | `addCmd` accepts thirteen `'L'` fields, a 53-byte frame longer than the buffer |
| Scenarios.ZeroSizeOverruns | uCommander.cpp:167-172 | 255 `'B'` fields make a 256-byte frame that `size()` reports as 0; `addCmd` accepts it, and its frame never dispatches but overruns the buffer on the 51st byte |
| Scenarios.WrappedSizeStaysInBuffer | uCommander.cpp:72-91 | 64 `'i'` then 5 `'B'` fields make a 262-byte frame whose `size()` wraps to 6; its `size()` fits the buffer, so no input overruns it |

## Left out

- `discover` and the text it prints for the 0xFF byte are output only. The model keeps only what 0xFF does to framing: it is dropped.
- The `Stream` is replaced by the sequence of bytes available during one `readSerial` call. `available()` and `read()` are that sequence.
- Handlers are not run. Each call becomes a `Dispatch` event in a log, so anything a handler does to `_buf` through its packet view is not modelled.
- The heap copies are not modelled: the `new char[]` descriptor copy, the per-frame `new uPacket` and its `delete`.
- The name strings `_cmdnames` and `_argnames` are not modelled. They are read only by `discover`.
- `begin()` is left out because it only returns true.
- The second `uPacket` constructor, which takes argument names, is left out, and so is the commented-out `getNamedArg`.
- The `uADDCMD` and `uGETARG` macros are left out.
- `CMDCOUNT` and `BUFSIZE` are fixed at the header's default of 50 (uCommander.h:37-42). Values a sketch defines instead are not modelled. From 255 (`CMDCOUNT`) or 256 (`BUFSIZE`) up, the `uint8_t` counters at uCommander.cpp:55 and uCommander.cpp:99 break: the capacity guard never fires, and the loop in `resetBuffer` never ends.
- `getArg<T>` is a template over any `T`. Only the C types the header pairs with the tags are modelled; a type such as an 8-byte `double` on ARM is not.
- Packet.Decode: a `float` field is read as its raw 32-bit word. IEEE single-precision interpretation is not modelled.
- Packet.Decode: a `char` field is read as an unsigned byte, whatever the target's `char` signedness.
- Commander.Step: a byte is taken as unsigned. On targets with signed `char`, `_buf[0]==0xFF` is never true. The `(uint8_t)` test then drops 0xFF anyway, because with the default `CMDCOUNT` the count never exceeds 51, so the outcome is the same.
- Commander.Step: after a lead byte selects an unregistered slot, or a byte overruns the buffer, the frame becomes the absorbing `Undefined` state. What the C code then does is not modelled.
- Commander.AddCmd: the 51st registration writes past the end of the C handler and descriptor arrays. The model records it as a 51st table entry instead of the memory it would overwrite.
- Packet.Descriptor: descriptors of 256 or more tags are excluded. The `uint8_t` loop counter of `size()` could never reach their length.
- The missing idle timeout (uCommander.cpp:94) is not invented. A partial frame stays until more bytes come.

=== FILE: bytes.dfy ===
/**
 Bytes as they travel over the serial line and sit in the frame buffer, and the
 little-endian, two's-complement reading of a byte string that `memcpy` into a
 C integer performs on the (little-endian) microcontrollers the library targets.
 */
module Bytes {

  /** One octet: the value of a `char` read from the serial stream, taken as unsigned. */
  type byte = x: int | 0 <= x < 256

  /** 256^n, the number of distinct values of an n-byte word. */
  function Pow256(n: nat): (r: nat)
    ensures r >= 1
    ensures n >= 1 ==> r >= 256 && r % 256 == 0
  {
    if n == 0 then 1 else 256 * Pow256(n - 1)
  }

  /** A byte string of n zeros. */
  function Zeros(n: nat): (z: seq<byte>)
    ensures |z| == n
    ensures forall j :: 0 <= j < n ==> z[j] == 0
  {
    if n == 0 then [] else Zeros(n - 1) + [0]
  }

  /** The unsigned value of a byte string read least significant byte first. */
  function FromLittleEndian(bs: seq<byte>): (v: nat)
    ensures v < Pow256(|bs|)
  {
    if |bs| == 0 then 0
    else
      var rest := FromLittleEndian(bs[1..]);
      assert rest <= Pow256(|bs| - 1) - 1;
      assert 256 * rest <= 256 * Pow256(|bs| - 1) - 256;
      bs[0] + 256 * rest
  }

  /** The n bytes, least significant first, of an unsigned value that fits in n bytes. */
  function ToLittleEndian(v: nat, n: nat): (bs: seq<byte>)
    requires v < Pow256(n)
    ensures |bs| == n
    ensures FromLittleEndian(bs) == v
  {
    if n == 0 then []
    else
      var rest := ToLittleEndian(v / 256, n - 1);
      assert ([v % 256] + rest)[1..] == rest;
      [v % 256] + rest
  }

  /** A low byte and the value above it are recovered by `% 256` and `/ 256`. */
  lemma SplitLowByte(b: byte, high: nat)
    ensures (b + 256 * high) % 256 == b
    ensures (b + 256 * high) / 256 == high
  {
  }

  /** Decoding then re-encoding a byte string gives back the same bytes. */
  lemma {:induction false} LittleEndianBytesRoundTrip(bs: seq<byte>)
    ensures ToLittleEndian(FromLittleEndian(bs), |bs|) == bs
  {
    if |bs| > 0 {
      var high := FromLittleEndian(bs[1..]);
      var v := FromLittleEndian(bs);
      assert v % 256 == bs[0] && v / 256 == high by {
        assert v == bs[0] + 256 * high;
        SplitLowByte(bs[0], high);
      }
      LittleEndianBytesRoundTrip(bs[1..]);
      assert ToLittleEndian(v, |bs|) == [bs[0]] + bs[1..];
    }
  }

  /** Half the range of an n-byte word: the magnitude of its most negative signed value. */
  function Half(n: nat): (h: int)
    requires n >= 1
    ensures h >= 128 && 2 * h == Pow256(n)
  {
    128 * Pow256(n - 1)
  }

  /** The two's-complement reading of an n-byte unsigned word. */
  function ToSigned(u: nat, n: nat): (v: int)
    requires n >= 1 && u < Pow256(n)
    ensures -Half(n) <= v < Half(n)
    ensures v >= 0 <==> u < Half(n)
  {
    if u < Half(n) then u else u - Pow256(n)
  }

  /** The n-byte two's-complement word that stores a signed value in range. */
  function FromSigned(v: int, n: nat): (u: nat)
    requires n >= 1 && -Half(n) <= v < Half(n)
    ensures u < Pow256(n)
    ensures ToSigned(u, n) == v
  {
    if v >= 0 then v else v + Pow256(n)
  }

  /** Every n-byte word is the two's-complement storage of its signed reading. */
  lemma SignedWordRoundTrip(u: nat, n: nat)
    requires n >= 1 && u < Pow256(n)
    ensures FromSigned(ToSigned(u, n), n) == u
  {
  }
}

=== FILE: commander.dfy ===
/**
 The dispatcher (`uCommander`): the command table filled by `addCmd`, and the
 byte-at-a-time frame assembler of `readSerial`. A frame's first byte names a
 command; that command's descriptor fixes how many bytes make the frame; once the
 buffer holds that many, the command's handler runs once and the buffer is reset.

 Handlers are not called: each completed frame is reported as a `Dispatch` event
 carrying the command index and the buffer the handler's packet view reads. Where
 the C code has no defined behaviour (it reads a descriptor pointer that was never
 set, or writes past the end of the buffer) the frame becomes `Undefined` and stays so.
 */
module Commander {
  import opened Options
  import opened Seqs
  import opened Bytes
  import opened Packet

  /** Capacity of the handler and descriptor tables: the header's default `UCOMMANDER_CMDCOUNT`. */
  const CMDCOUNT: nat := 50
  /** Capacity of the frame buffer: the header's default `UCOMMANDER_BUFSIZE`. */
  const BUFSIZE: nat := 50

  /** The two ways `readSerial` leaves defined behaviour. */
  datatype Fault =
    | UnregisteredSlot  // a lead byte equal to the command count selects a table slot `addCmd` never filled
    | BufferOverrun     // a byte arrives while the buffer index is already at `BUFSIZE`

  /** The frame buffer `_buf`: exactly `BUFSIZE` bytes. */
  type Buffer = s: seq<byte> | |s| == BUFSIZE witness Zeros(BUFSIZE)

  /** The in-flight frame: the buffer and the count of bytes stored in it. */
  datatype Frame = Assembling(buf: Buffer, idx: nat) | Undefined(cause: Fault)

  /** One handler invocation: the command index and the buffer its packet view reads. */
  datatype Dispatch = Dispatch(cmd: byte, buf: Buffer)

  /** The dispatcher's state: the registered descriptors, in index order, and the frame. */
  datatype Commander = Commander(cmds: seq<Descriptor>, frame: Frame)

  /** No bytes held: every buffer byte is zero and the index is 0. */
  predicate IsReset(fr: Frame)
  {
    && fr.Assembling?
    && fr.idx == 0
    && forall j :: 0 <= j < BUFSIZE ==> fr.buf[j] == 0
  }

  /** `resetBuffer`: zero all `BUFSIZE` bytes and set the index to 0. */
  function ResetBuffer(): (fr: Frame)
    ensures IsReset(fr)
  {
    Assembling(Zeros(BUFSIZE), 0)
  }

  /** `init`: no commands registered and an empty buffer. */
  function Init(): (c: Commander)
    ensures |c.cmds| == 0
    ensures IsReset(c.frame)
  {
    Commander([], ResetBuffer())
  }

  /**
   `addCmd`: store a copy of the descriptor at index `_next_cmd_index` and count it.
   The guard is `_next_cmd_index > CMDCOUNT`, so a table already holding `CMDCOUNT`
   commands still accepts one more. The handler is not modelled.
   */
  function AddCmd(c: Commander, d: Descriptor): (r: (Commander, bool))
    ensures r.1 <==> |c.cmds| <= CMDCOUNT
    ensures r.1 ==> |r.0.cmds| == |c.cmds| + 1 && r.0.cmds[|c.cmds|] == d
    ensures r.1 ==> forall i :: 0 <= i < |c.cmds| ==> r.0.cmds[i] == c.cmds[i]
    ensures r.1 ==> r.0.frame == c.frame
    ensures !r.1 ==> r.0 == c
  {
    if |c.cmds| > CMDCOUNT then (c, false)
    else (c.(cmds := c.cmds + [d]), true)
  }

  /**
   One round of the `readSerial` loop: store the byte at the buffer index and advance
   it; on the first byte, drop it (reset) when it is `0xFF` or above the command
   count; otherwise dispatch and reset once the index equals `size()` of the
   descriptor the first byte selects.
   */
  function Step(c: Commander, b: byte): (r: (Commander, Option<Dispatch>))
    ensures r.0.cmds == c.cmds
    ensures r.1.Some? ==> IsReset(r.0.frame) && r.1.value.cmd < |c.cmds|
    ensures r.1.Some? ==> c.frame.Assembling? && PacketSize(c.cmds[r.1.value.cmd]) == c.frame.idx + 1
    ensures c.frame.Undefined? ==> r == (c, None)
  {
    match c.frame
    case Undefined(_) => (c, None)
    case Assembling(buf, idx) =>
      if idx >= BUFSIZE then (c.(frame := Undefined(BufferOverrun)), None)
      else
        var buf' := buf[idx := b];
        var idx' := idx + 1;
        if idx' == 1 && (b == 0xFF || b > |c.cmds|) then (c.(frame := ResetBuffer()), None)
        else if buf'[0] >= |c.cmds| then (c.(frame := Undefined(UnregisteredSlot)), None)
        else if PacketSize(c.cmds[buf'[0]]) == idx' then
          (c.(frame := ResetBuffer()), Some(Dispatch(buf'[0], buf')))
        else (c.(frame := Assembling(buf', idx')), None)
  }

  /** The events an optional event contributes to a log. */
  function Logged<E>(e: Option<E>): seq<E>
  {
    if e.Some? then [e.value] else []
  }

  /** Running a step function over a byte stream, front to back, collecting its events in order. */
  function Fold<S, E>(step: (S, byte) -> (S, Option<E>), s: S, input: seq<byte>): (r: (S, seq<E>))
    ensures |r.1| <= |input|
    decreases |input|
  {
    if |input| == 0 then (s, [])
    else
      var (s1, log1) := Fold(step, s, input[..|input| - 1]);
      var (s2, e) := step(s1, input[|input| - 1]);
      (s2, log1 + Logged(e))
  }

  /** Folding over one more byte is one more step after the earlier ones. */
  lemma FoldSnoc<S, E>(step: (S, byte) -> (S, Option<E>), s: S, input: seq<byte>, x: byte)
    ensures Fold(step, s, input + [x]).0 == step(Fold(step, s, input).0, x).0
    ensures Fold(step, s, input + [x]).1 == Fold(step, s, input).1 + Logged(step(Fold(step, s, input).0, x).1)
  {
    PrefixOfSnoc(input, x);
  }

  /** Folding over two chunks in turn is folding over their concatenation. */
  lemma {:induction false} FoldAppend<S, E>(step: (S, byte) -> (S, Option<E>), s: S, a: seq<byte>, b: seq<byte>)
    ensures Fold(step, s, a + b).0 == Fold(step, Fold(step, s, a).0, b).0
    ensures Fold(step, s, a + b).1 == Fold(step, s, a).1 + Fold(step, Fold(step, s, a).0, b).1
    decreases |b|
  {
    if |b| == 0 {
      assert a + b == a;
    } else {
      var front := b[..|b| - 1];
      var x := b[|b| - 1];
      var mid := Fold(step, s, a).0;
      var r := Fold(step, s, a + front);
      var q := Fold(step, mid, front);
      FoldAppend(step, s, a, front);
      var last := step(q.0, x);
      SplitLast(b);
      AppendAssoc(a, front, [x]);
      FoldSnoc(step, s, a + front, x);
      FoldSnoc(step, mid, front, x);
      AppendAssoc(Fold(step, s, a).1, q.1, Logged(last.1));
    }
  }

  /** Framing never changes the command table. */
  lemma {:induction false} FoldStepKeepsTable(c: Commander, input: seq<byte>)
    ensures Fold(Step, c, input).0.cmds == c.cmds
    ensures forall i :: 0 <= i < |Fold(Step, c, input).1| ==> Fold(Step, c, input).1[i].cmd < |c.cmds|
    decreases |input|
  {
    if |input| > 0 {
      var front := input[..|input| - 1];
      FoldStepKeepsTable(c, front);
      FoldSnoc(Step, c, front, input[|input| - 1]);
      SplitLast(input);
    }
  }

  /**
   Everything `readSerial` does with the bytes available to it: the final state and,
   in order, the dispatches made, each naming a registered command.
   */
  function Feed(c: Commander, input: seq<byte>): (r: (Commander, seq<Dispatch>))
    ensures r.0.cmds == c.cmds
    ensures |r.1| <= |input|
    ensures forall i :: 0 <= i < |r.1| ==> r.1[i].cmd < |c.cmds|
  {
    FoldStepKeepsTable(c, input);
    Fold(Step, c, input)
  }

  /** `readSerial`: the loop that reads while bytes are available. */
  method ReadSerial(c: Commander, input: seq<byte>) returns (c': Commander, log: seq<Dispatch>)
    ensures (c', log) == Feed(c, input)
  {
    c', log := c, [];
    var i := 0;
    while i < |input|
      invariant i <= |input|
      invariant (c', log) == Fold(Step, c, input[..i])
    {
      FoldSnoc(Step, c, input[..i], input[i]);
      PrefixSnoc(input, i + 1);
      var (next, e) := Step(c', input[i]);
      c', log := next, log + Logged(e);
      i := i + 1;
    }
    assert input[..i] == input;
  }
}

=== FILE: framing.dfy ===
/**
 What the dispatcher guarantees over whole byte streams: registration order and
 capacity, discarding of bad lead bytes, exactly one dispatch per complete frame,
 state carried from one `readSerial` call to the next, and the buffer bound that
 holds only when every registered frame fits the buffer.
 */
module Framing {
  import opened Options
  import opened Seqs
  import opened Bytes
  import opened Packet
  import opened Commander

  /** A descriptor whose frame fits the buffer; the code never checks this. */
  predicate Fits(d: Descriptor)
  {
    1 + WidthSum(d, Strlen(d)) <= BUFSIZE
  }

  /**
   A descriptor whose `size()`, as the `uint8_t` sum computes it, lies between 1 and
   `BUFSIZE`: the dispatcher then completes its frame before the buffer runs out,
   whatever the exact frame length.
   */
  predicate SizeFits(d: Descriptor)
  {
    1 <= PacketSize(d) <= BUFSIZE
  }

  /** A frame whose exact length fits the buffer has a `size()` that fits it too. */
  lemma FitsHasSize(d: Descriptor)
    requires Fits(d)
    ensures SizeFits(d)
    ensures PacketSize(d) == 1 + WidthSum(d, Strlen(d))
  {
    SmallMod256(1 + WidthSum(d, Strlen(d)));
  }

  /** Every registered command's `size()` fits the buffer. */
  predicate TableFits(cmds: seq<Descriptor>)
  {
    forall i :: 0 <= i < |cmds| ==> SizeFits(cmds[i])
  }

  /** The table the header declares: at most `CMDCOUNT` commands, each `size()` fitting the buffer. */
  predicate TableOk(cmds: seq<Descriptor>)
  {
    |cmds| <= CMDCOUNT && TableFits(cmds)
  }

  /**
   The assembler between bytes: the index is inside the buffer, the bytes past it are
   still zero, and a started frame names a registered command whose size it has not
   yet reached.
   */
  predicate Inv(c: Commander)
  {
    && c.frame.Assembling?
    && c.frame.idx < BUFSIZE
    && (forall j :: c.frame.idx <= j < BUFSIZE ==> c.frame.buf[j] == 0)
    && (c.frame.idx >= 1 ==>
          c.frame.buf[0] < |c.cmds| && c.frame.idx < PacketSize(c.cmds[c.frame.buf[0]]))
  }

  /** The frame after the first bytes p of a frame have been stored. */
  function Partial(p: seq<byte>): (fr: Frame)
    requires |p| <= BUFSIZE
    ensures fr.Assembling? && fr.idx == |p|
    ensures fr.buf[..|p|] == p
  {
    Assembling(p + Zeros(BUFSIZE - |p|), |p|)
  }

  //
  // Registration
  //

  /** Calling `addCmd` once per descriptor, in order; the results in the same order. */
  function RegisterAll(c: Commander, ds: seq<Descriptor>): (r: (Commander, seq<bool>))
    ensures |r.1| == |ds|
    ensures r.0.frame == c.frame
    decreases |ds|
  {
    if |ds| == 0 then (c, [])
    else
      var (c1, oks) := RegisterAll(c, ds[..|ds| - 1]);
      var (c2, ok) := AddCmd(c1, ds[|ds| - 1]);
      (c2, oks + [ok])
  }

  function Min(a: nat, b: nat): nat
  {
    if a <= b then a else b
  }

  /** Registering one more descriptor is one more `addCmd` after the earlier ones. */
  lemma RegisterAllSnoc(c: Commander, ds: seq<Descriptor>)
    requires |ds| > 0
    ensures var prev := RegisterAll(c, ds[..|ds| - 1]);
      var added := AddCmd(prev.0, ds[|ds| - 1]);
      RegisterAll(c, ds) == (added.0, prev.1 + [added.1])
  {
  }

  /**
   Registering from the initial state assigns indices 0, 1, 2, ... in call order. The
   first `CMDCOUNT + 1` registrations succeed (one more than the table holds) and
   every later one fails.
   */
  lemma {:induction false} RegistrationOrder(ds: seq<Descriptor>)
    ensures RegisterAll(Init(), ds).0.cmds == ds[..Min(|ds|, CMDCOUNT + 1)]
    ensures forall i :: 0 <= i < |ds| ==> (RegisterAll(Init(), ds).1[i] <==> i <= CMDCOUNT)
  {
    if |ds| > 0 {
      var n := |ds|;
      var front := ds[..n - 1];
      RegistrationOrder(front);
      var prev := RegisterAll(Init(), front);
      var added := AddCmd(prev.0, ds[n - 1]);
      RegisterAllSnoc(Init(), ds);
      assert added.1 <==> n - 1 <= CMDCOUNT;
      if n - 1 <= CMDCOUNT {
        assert added.0.cmds == front + [ds[n - 1]];
        PrefixSnoc(ds, n);
      } else {
        assert added.0.cmds == front[..CMDCOUNT + 1];
        assert front[..CMDCOUNT + 1] == ds[..CMDCOUNT + 1];
      }
      forall i | 0 <= i < n
        ensures RegisterAll(Init(), ds).1[i] <==> i <= CMDCOUNT
      {
        if i < n - 1 {
          assert RegisterAll(Init(), ds).1[i] == prev.1[i];
        }
      }
    }
  }

  /** With room left and a `size()` that fits, `addCmd` succeeds and keeps the table within its declared bounds. */
  lemma AddCmdKeepsTableOk(c: Commander, d: Descriptor)
    requires TableOk(c.cmds) && |c.cmds| < CMDCOUNT && SizeFits(d)
    ensures AddCmd(c, d).1
    ensures TableOk(AddCmd(c, d).0.cmds)
    ensures Inv(c) ==> Inv(AddCmd(c, d).0)
  {
    var c' := AddCmd(c, d).0;
    assert forall i :: 0 <= i < |c.cmds| ==> c'.cmds[i] == c.cmds[i];
  }

  /**
   The capacity guard admits one registration too many: with `CMDCOUNT` commands
   already registered, `addCmd` succeeds and the new index is `CMDCOUNT`, one past
   the last slot of the C tables.
   */
  lemma AddCmdAdmitsOnePastCapacity(c: Commander, d: Descriptor)
    requires |c.cmds| == CMDCOUNT
    ensures AddCmd(c, d).1
    ensures |AddCmd(c, d).0.cmds| == CMDCOUNT + 1 && AddCmd(c, d).0.cmds[CMDCOUNT] == d
    ensures !TableOk(AddCmd(c, d).0.cmds)
  {
  }

  //
  // One byte
  //

  /** A lead byte that is 0xFF or above the command count is dropped: the buffer is reset and nothing is dispatched. */
  lemma BadLeadByteDiscarded(c: Commander, b: byte)
    requires c.frame.Assembling? && c.frame.idx == 0
    requires b == 0xFF || b > |c.cmds|
    ensures Step(c, b) == (c.(frame := ResetBuffer()), None)
  {
  }

  /**
   A lead byte equal to the command count passes the `>` guard: it is kept, not
   dropped, and selects a slot no descriptor was stored in.
   */
  lemma LeadByteEqualToCountAccepted(c: Commander, b: byte)
    requires c.frame.Assembling? && c.frame.idx == 0
    requires b == |c.cmds| && b != 0xFF
    ensures Step(c, b) == (c.(frame := Undefined(UnregisteredSlot)), None)
  {
  }

  /**
   With every registered `size()` between 1 and `BUFSIZE`, a byte that does not
   select an unregistered slot keeps the assembler's invariant.
   */
  lemma StepPreservesInv(c: Commander, b: byte)
    requires Inv(c) && TableFits(c.cmds)
    requires !(c.frame.idx == 0 && b == |c.cmds| && b != 0xFF)
    ensures Inv(Step(c, b).0)
  {
    var buf := c.frame.buf;
    var idx := c.frame.idx;
    var lead := if idx == 0 then b else buf[0];
    if !(idx == 0 && (b == 0xFF || b > |c.cmds|)) {
      assert lead < |c.cmds|;
      assert SizeFits(c.cmds[lead]);
    }
  }

  /**
   Under a valid frame, the byte completes a dispatch exactly when the selected
   command's `size()` equals the index after storing it; the dispatch names that
   command and the buffer then holds the completed frame.
   */
  lemma StepDispatchesAtSize(c: Commander, b: byte)
    requires Inv(c)
    ensures var lead := if c.frame.idx == 0 then b else c.frame.buf[0];
      Step(c, b).1.Some? <==>
        (&& !(c.frame.idx == 0 && (b == 0xFF || b > |c.cmds|))
         && lead < |c.cmds|
         && PacketSize(c.cmds[lead]) == c.frame.idx + 1)
    ensures Step(c, b).1.Some? ==>
      Step(c, b).1.value == Dispatch(if c.frame.idx == 0 then b else c.frame.buf[0], c.frame.buf[c.frame.idx := b])
  {
  }

  //
  // Byte streams
  //

  /** `resetBuffer` leaves exactly one state. */
  lemma ResetIsUnique(fr: Frame)
    requires IsReset(fr)
    ensures fr == ResetBuffer()
  {
    assert fr.buf == Zeros(BUFSIZE);
  }

  /** Feeding one more byte is one more step after the earlier ones. */
  lemma FeedSnoc(c: Commander, s: seq<byte>, x: byte)
    ensures Feed(c, s + [x]).0 == Step(Feed(c, s).0, x).0
    ensures Feed(c, s + [x]).1 == Feed(c, s).1 + Logged(Step(Feed(c, s).0, x).1)
  {
    FoldSnoc(Step, c, s, x);
  }

  /**
   Two `readSerial` calls on consecutive chunks do what one call on their
   concatenation does: the partial frame is carried over between calls.
   */
  lemma FeedAppend(c: Commander, a: seq<byte>, b: seq<byte>)
    ensures Feed(c, a + b).0 == Feed(Feed(c, a).0, b).0
    ensures Feed(c, a + b).1 == Feed(c, a).1 + Feed(Feed(c, a).0, b).1
  {
    FoldAppend(Step, c, a, b);
  }

  /**
   Starting from any state whose invariant holds, with every registered `size()`
   between 1 and `BUFSIZE`, the buffer is never overrun: after any input the invariant still holds,
   unless a lead byte equal to the command count selected an unregistered slot.
   */
  lemma {:induction false} FeedNeverOverruns(c: Commander, input: seq<byte>)
    requires Inv(c) && TableFits(c.cmds)
    ensures Inv(Feed(c, input).0) || Feed(c, input).0.frame == Undefined(UnregisteredSlot)
    ensures Feed(c, input).0.frame != Undefined(BufferOverrun)
    decreases |input|
  {
    if |input| > 0 {
      var front := input[..|input| - 1];
      var b := input[|input| - 1];
      FeedNeverOverruns(c, front);
      SplitLast(input);
      FeedSnoc(c, front, b);
      var c1 := Feed(c, front).0;
      if Inv(c1) {
        if c1.frame.idx == 0 && b == |c1.cmds| && b != 0xFF {
          LeadByteEqualToCountAccepted(c1, b);
        } else {
          StepPreservesInv(c1, b);
        }
      }
    }
  }

  /** Storing one more byte of a started frame. */
  lemma PartialStore(p: seq<byte>, x: byte)
    requires |p| < BUFSIZE
    ensures Partial(p).buf[|p| := x] == Partial(p + [x]).buf
  {
    var lhs := Partial(p).buf[|p| := x];
    var rhs := Partial(p + [x]).buf;
    assert |lhs| == |rhs|;
    forall j | 0 <= j < |lhs|
      ensures lhs[j] == rhs[j]
    {
      if j < |p| {
        assert rhs[j] == (p + [x])[j];
      }
    }
  }

  /** The lead byte of a registered command starts a frame, or dispatches at once when `size()` is 1. */
  lemma LeadByteStartsFrame(c: Commander, k: byte)
    requires IsReset(c.frame) && k < |c.cmds| && k != 0xFF
    ensures PacketSize(c.cmds[k]) != 1 ==> Step(c, k) == (c.(frame := Partial([k])), None)
    ensures PacketSize(c.cmds[k]) == 1 ==>
      Step(c, k) == (c.(frame := ResetBuffer()), Some(Dispatch(k, Partial([k]).buf)))
  {
    ResetIsUnique(c.frame);
    AppendEmpty(Zeros(BUFSIZE));
    PartialStore([], k);
    assert c.frame.buf[0 := k] == Partial([k]).buf;
  }

  /** The next byte of a started frame is stored, and dispatches when the count reaches `size()`. */
  lemma StepOnStartedFrame(c: Commander, p: seq<byte>, x: byte)
    requires 1 <= |p| < BUFSIZE && p[0] < |c.cmds|
    requires c.frame == Partial(p)
    ensures PacketSize(c.cmds[p[0]]) != |p| + 1 ==> Step(c, x) == (c.(frame := Partial(p + [x])), None)
    ensures PacketSize(c.cmds[p[0]]) == |p| + 1 ==>
      Step(c, x) == (c.(frame := ResetBuffer()), Some(Dispatch(p[0], Partial(p + [x]).buf)))
  {
    PartialStore(p, x);
    assert Partial(p).buf[0] == p[0];
  }

  /**
   No index from 1 to `n` equals a `size()` of `size`: it is above `n`, or it wrapped
   to 0, which the index (at least 1 after a store) never reaches.
   */
  predicate HeldThrough(size: byte, n: nat)
  {
    size == 0 || n < size
  }

  /** One more byte of a started frame below `size()` is held in the buffer. */
  lemma AccumulateOne(c: Commander, f: seq<byte>, i: nat, j: nat)
    requires 1 <= i < j <= |f| && j <= BUFSIZE
    requires f[0] < |c.cmds| && HeldThrough(PacketSize(c.cmds[f[0]]), j)
    requires Feed(c.(frame := Partial(f[..i])), f[i..j - 1]) == (c.(frame := Partial(f[..j - 1])), [])
    ensures Feed(c.(frame := Partial(f[..i])), f[i..j]) == (c.(frame := Partial(f[..j])), [])
  {
    var start := c.(frame := Partial(f[..i]));
    var p := f[..j - 1];
    SliceSnoc(f, i, j);
    FeedSnoc(start, f[i..j - 1], f[j - 1]);
    PrefixSnoc(f, j);
    assert p[0] == f[0];
    StepOnStartedFrame(c.(frame := Partial(p)), p, f[j - 1]);
    AppendEmpty<Dispatch>([]);
  }

  /**
   Bytes of a started frame accumulate without dispatch while the count stays below
   the command's `size()`.
   */
  lemma {:induction false} Accumulate(c: Commander, f: seq<byte>, i: nat, j: nat)
    requires 1 <= i <= j <= |f| && j <= BUFSIZE
    requires f[0] < |c.cmds| && HeldThrough(PacketSize(c.cmds[f[0]]), j)
    ensures Feed(c.(frame := Partial(f[..i])), f[i..j]) == (c.(frame := Partial(f[..j])), [])
    decreases j - i
  {
    if j == i {
      assert f[i..j] == [];
    } else {
      Accumulate(c, f, i, j - 1);
      AccumulateOne(c, f, i, j);
    }
  }

  /** The first byte of a frame from a reset state starts it (every case but `size()` == 1). */
  lemma FrameStarts(c: Commander, f: seq<byte>)
    requires IsReset(c.frame) && |f| >= 1 && f[0] < |c.cmds| && f[0] != 0xFF
    requires HeldThrough(PacketSize(c.cmds[f[0]]), 1)
    ensures Feed(c, f[..1]) == (c.(frame := Partial(f[..1])), [])
  {
    assert f[..1] == [] + [f[0]];
    FeedSnoc(c, [], f[0]);
    LeadByteStartsFrame(c, f[0]);
  }

  /**
   From a reset state, the first `n` bytes of a frame whose `size()` is above `n`, or
   wraps to 0, are held without dispatch.
   */
  lemma FramePrefixHeld(c: Commander, f: seq<byte>, n: nat)
    requires IsReset(c.frame) && 1 <= n <= |f| && n <= BUFSIZE
    requires f[0] < |c.cmds| && f[0] != 0xFF && HeldThrough(PacketSize(c.cmds[f[0]]), n)
    ensures Feed(c, f[..n]) == (c.(frame := Partial(f[..n])), [])
  {
    FrameStarts(c, f);
    Accumulate(c, f, 1, n);
    FeedAppend(c, f[..1], f[1..n]);
    PrefixJoin(f, 1, n);
  }

  /** A frame of one byte (a command without fields) dispatches on its lead byte. */
  lemma OneByteFrame(c: Commander, f: seq<byte>)
    requires IsReset(c.frame)
    requires |f| == 1 && f[0] < |c.cmds| && f[0] != 0xFF
    requires PacketSize(c.cmds[f[0]]) == 1
    ensures Feed(c, f) == (c.(frame := ResetBuffer()), [Dispatch(f[0], Partial(f).buf)])
  {
    assert f == [] + [f[0]];
    FeedSnoc(c, [], f[0]);
    assert Feed(c, []) == (c, []);
    LeadByteStartsFrame(c, f[0]);
    assert f == [f[0]];
    var d := Dispatch(f[0], Partial(f).buf);
    assert Feed(c, f).1 == [] + [d];
    assert [] + [d] == [d];
  }

  /** The last byte of a longer frame completes it: one dispatch, and the buffer is reset. */
  lemma LastByteDispatches(c: Commander, f: seq<byte>)
    requires IsReset(c.frame)
    requires 2 <= |f| <= BUFSIZE && f[0] < |c.cmds| && f[0] != 0xFF
    requires |f| == PacketSize(c.cmds[f[0]])
    ensures Feed(c, f) == (c.(frame := ResetBuffer()), [Dispatch(f[0], Partial(f).buf)])
  {
    var n := |f|;
    var p := f[..n - 1];
    var x := f[n - 1];
    var mid := c.(frame := Partial(p));
    var d := Dispatch(f[0], Partial(f).buf);
    var last := Step(mid, x);
    assert Feed(c, p) == (mid, []) by {
      FramePrefixHeld(c, f, n - 1);
    }
    assert last == (c.(frame := ResetBuffer()), Some(d)) by {
      assert p[0] == f[0];
      SplitLast(f);
      StepOnStartedFrame(mid, p, x);
    }
    assert Feed(c, f) == (last.0, [] + Logged(last.1)) by {
      SplitLast(f);
      FeedSnoc(c, p, x);
    }
    AppendEmpty([d]);
  }

  /**
   Exactly one dispatch per frame: from a reset state, the `size()` bytes of a frame
   for a registered command dispatch that command once, with the frame at the start
   of the buffer and zeros after it, and leave the buffer reset.
   */
  lemma FeedOneFrame(c: Commander, f: seq<byte>)
    requires IsReset(c.frame)
    requires |f| >= 1 && f[0] < |c.cmds| && f[0] != 0xFF
    requires |f| == PacketSize(c.cmds[f[0]]) && |f| <= BUFSIZE
    ensures Feed(c, f) == (c.(frame := ResetBuffer()), [Dispatch(f[0], Partial(f).buf)])
  {
    if |f| == 1 {
      OneByteFrame(c, f);
    } else {
      LastByteDispatches(c, f);
    }
  }

  /** Two complete frames in a row dispatch twice, in order, each with its own bytes. */
  lemma FeedTwoFrames(c: Commander, f: seq<byte>, g: seq<byte>)
    requires IsReset(c.frame)
    requires |f| >= 1 && f[0] < |c.cmds| && f[0] != 0xFF
    requires |f| == PacketSize(c.cmds[f[0]]) && |f| <= BUFSIZE
    requires |g| >= 1 && g[0] < |c.cmds| && g[0] != 0xFF
    requires |g| == PacketSize(c.cmds[g[0]]) && |g| <= BUFSIZE
    ensures Feed(c, f + g) ==
      (c.(frame := ResetBuffer()), [Dispatch(f[0], Partial(f).buf), Dispatch(g[0], Partial(g).buf)])
  {
    var reset := c.(frame := ResetBuffer());
    FeedAppend(c, f, g);
    FeedOneFrame(c, f);
    FeedOneFrame(reset, g);
    assert Feed(c, f) == (reset, [Dispatch(f[0], Partial(f).buf)]);
    assert Feed(reset, g) == (reset, [Dispatch(g[0], Partial(g).buf)]);
    var d1, d2 := Dispatch(f[0], Partial(f).buf), Dispatch(g[0], Partial(g).buf);
    assert Feed(c, f + g).1 == [d1] + [d2];
    assert [d1] + [d2] == [d1, d2];
  }

  /**
   No timeout: a frame cut short when input runs out stays in the buffer, and the
   next call completes it with a single dispatch.
   */
  lemma FrameSplitAcrossCalls(c: Commander, f: seq<byte>, i: nat)
    requires IsReset(c.frame)
    requires |f| >= 1 && f[0] < |c.cmds| && f[0] != 0xFF
    requires |f| == PacketSize(c.cmds[f[0]]) && |f| <= BUFSIZE
    requires 1 <= i < |f|
    ensures Feed(c, f[..i]) == (c.(frame := Partial(f[..i])), [])
    ensures Feed(Feed(c, f[..i]).0, f[i..]) == (c.(frame := ResetBuffer()), [Dispatch(f[0], Partial(f).buf)])
  {
    FramePrefixHeld(c, f, i);
    FeedAppend(c, f[..i], f[i..]);
    SplitAt(f, i);
    FeedOneFrame(c, f);
    var held := Feed(c, f[..i]);
    var rest := Feed(held.0, f[i..]);
    assert held.1 == [];
    assert Feed(c, f).1 == [] + rest.1;
    assert [] + rest.1 == rest.1;
  }

  /** A bad lead byte in front of a frame is dropped and the frame is still dispatched. */
  lemma BadByteThenFrame(c: Commander, b: byte, f: seq<byte>)
    requires IsReset(c.frame) && (b == 0xFF || b > |c.cmds|)
    ensures Feed(c, [b] + f) == Feed(c, f)
  {
    FeedAppend(c, [b], f);
    assert [b] == [] + [b];
    FeedSnoc(c, [], b);
    assert Feed(c, []) == (c, []);
    BadLeadByteDiscarded(c, b);
    ResetIsUnique(c.frame);
    assert Feed(c, [b]) == (c, []);
    assert Feed(c, [b] + f).1 == [] + Feed(c, f).1;
    assert [] + Feed(c, f).1 == Feed(c, f).1;
  }

  /**
   The buffer bound needs every frame to fit: a command whose `size()` exceeds
   `BUFSIZE`, or wraps to 0 and so never equals the index, overruns the buffer on
   the byte after the 50th.
   */
  lemma OversizedFrameOverruns(c: Commander, f: seq<byte>)
    requires IsReset(c.frame)
    requires |f| == BUFSIZE + 1 && f[0] < |c.cmds| && f[0] != 0xFF
    requires HeldThrough(PacketSize(c.cmds[f[0]]), BUFSIZE)
    ensures Feed(c, f) == (c.(frame := Undefined(BufferOverrun)), [])
  {
    FramePrefixHeld(c, f, BUFSIZE);
    SplitLast(f);
    FeedSnoc(c, f[..BUFSIZE], f[BUFSIZE]);
  }

  /**
   End to end: a frame the host encodes for a registered, well-typed command is
   dispatched once, and its handler's `getArg` with each field's declared type reads
   back the values that were encoded.
   */
  lemma EncodedFrameDelivered(c: Commander, k: byte, vals: seq<int>)
    requires IsReset(c.frame) && k < |c.cmds| && k != 0xFF
    requires ArgsFit(c.cmds[k], vals) && Fits(c.cmds[k])
    ensures var r := Feed(c, EncodeFrame(k, c.cmds[k], vals));
      && r.0 == c.(frame := ResetBuffer())
      && |r.1| == 1 && r.1[0].cmd == k
      && forall pos :: 0 <= pos < |c.cmds[k]| ==> ReadsBack(c.cmds[k], r.1[0].buf, pos, vals[pos])
  {
    var d := c.cmds[k];
    var f := EncodeFrame(k, d, vals);
    WellTypedStrlen(d);
    FeedOneFrame(c, f);
    var rest := Zeros(BUFSIZE - |f|);
    assert Partial(f).buf == f + rest;
    FrameCarriesFields(k, d, vals, rest);
    forall pos | 0 <= pos < |d|
      ensures ReadsBack(d, f + rest, pos, vals[pos])
    {
      ArgRoundTrip(f + rest, d, vals, pos);
    }
  }
}

=== FILE: options.dfy ===
/** The Option type used across the model. */
module Options {

  datatype Option<+T> = None | Some(value: T)
}

=== FILE: packet.dfy ===
/**
 The packet view (`uPacket`): the layout of a frame's argument fields computed from
 the command's descriptor, and the byte-copy decode of one field. The C code keeps
 offsets and sizes in `uint8_t`, so `Offset` and `PacketSize` are taken modulo 256;
 `WidthSum` is the exact sum they wrap.

 A frame is `[command byte][field 0][field 1]...`: field `pos` starts at buffer index
 `Offset(d, pos) + 1`, just past the command byte.
 */
module Packet {
  import opened Seqs
  import opened Bytes
  import opened Tags

  /**
   A descriptor: the tag characters passed to `addCmd`, copied verbatim. The C loops
   that walk it count with a `uint8_t`, which never reaches a length of 256 or more.
   */
  type Descriptor = d: seq<char> | |d| < 256

  /**
   `strlen` of the stored copy, which is the descriptor followed by a terminator: the
   number of characters before the first `'\0'`.
   */
  function Strlen(d: seq<char>): (n: nat)
    ensures n <= |d|
    ensures forall i :: 0 <= i < n ==> d[i] != '\0'
    ensures n < |d| ==> d[n] == '\0'
  {
    if |d| == 0 || d[0] == '\0' then 0 else 1 + Strlen(d[1..])
  }

  /** The exact sum of the widths of the first n fields. */
  function WidthSum(d: seq<char>, n: nat): (s: nat)
    requires n <= |d|
    ensures n <= s <= 4 * n
  {
    if n == 0 then 0 else WidthSum(d, n - 1) + FieldSize(d[n - 1])
  }

  /** `calcOffset(pos)`: the widths of the fields before `pos`, summed in a `uint8_t`. */
  function Offset(d: Descriptor, pos: nat): byte
    requires pos <= |d|
  {
    WidthSum(d, pos) % 256
  }

  /** `size()`: one command byte plus the widths of the fields before the terminator, in a `uint8_t`. */
  function PacketSize(d: Descriptor): byte
  {
    (1 + WidthSum(d, Strlen(d))) % 256
  }

  /** The descriptor's exact frame length stays below 256, so no `uint8_t` sum wraps. */
  predicate NoWrap(d: Descriptor)
  {
    1 + WidthSum(d, Strlen(d)) < 256
  }

  lemma SmallMod256(x: nat)
    requires x < 256
    ensures x % 256 == x
  {
  }

  lemma AddMod256(a: nat, w: nat)
    ensures (a % 256 + w) % 256 == (a + w) % 256
  {
  }

  /** The loop of `calcOffset`, with its `uint8_t` accumulator. */
  method CalcOffset(d: Descriptor, pos: nat) returns (offset: byte)
    requires pos <= |d|
    ensures offset == Offset(d, pos)
  {
    offset := 0;
    var i := 0;
    while i < pos
      invariant i <= pos
      invariant offset == WidthSum(d, i) % 256
    {
      AddMod256(WidthSum(d, i), FieldSize(d[i]));
      offset := (offset + FieldSize(d[i])) % 256;
      i := i + 1;
    }
  }

  /** The loop of `size()`, which re-tests `pos < strlen(_argtypes)` on every round. */
  method Size(d: Descriptor) returns (s: byte)
    ensures s == PacketSize(d)
    ensures NoWrap(d) ==> s == 1 + WidthSum(d, Strlen(d))
  {
    s := 1;
    var pos := 0;
    while pos < Strlen(d)
      invariant pos <= Strlen(d)
      invariant s == (1 + WidthSum(d, pos)) % 256
    {
      AddMod256(1 + WidthSum(d, pos), FieldSize(d[pos]));
      s := (s + FieldSize(d[pos])) % 256;
      pos := pos + 1;
    }
  }

  /** The offset recurrence: the first field starts at 0, each next one after the previous one's width. */
  lemma OffsetRecurrence(d: Descriptor, p: nat)
    requires p < |d|
    ensures Offset(d, 0) == 0
    ensures Offset(d, p + 1) == (Offset(d, p) + FieldSize(d[p])) % 256
  {
    AddMod256(WidthSum(d, p), FieldSize(d[p]));
  }

  /** Between two positions the width sum grows by at least one per field. */
  lemma {:induction false} WidthSumGrows(d: seq<char>, p: nat, q: nat)
    requires p <= q <= |d|
    ensures WidthSum(d, p) + (q - p) <= WidthSum(d, q)
    decreases q - p
  {
    if p < q {
      WidthSumGrows(d, p, q - 1);
    }
  }

  /** Offsets never decrease with position as long as the sums stay below 256. */
  lemma OffsetsNonDecreasing(d: Descriptor, p: nat, q: nat)
    requires p <= q <= |d| && WidthSum(d, q) < 256
    ensures Offset(d, p) <= Offset(d, q)
    ensures Offset(d, q) - Offset(d, p) >= q - p
  {
    WidthSumGrows(d, p, q);
    SmallMod256(WidthSum(d, p));
    SmallMod256(WidthSum(d, q));
  }

  /** Without wrap, `size()` is one more than the offset just past the last field. */
  lemma SizeIsOnePlusLastOffset(d: Descriptor)
    requires NoWrap(d)
    ensures PacketSize(d) == 1 + Offset(d, Strlen(d))
    ensures PacketSize(d) >= 1 + Strlen(d)
  {
    var w := WidthSum(d, Strlen(d));
    SmallMod256(w);
    SmallMod256(1 + w);
  }

  /** A field before the terminator lies wholly inside the frame `size()` counts. */
  lemma FieldInsideFrame(d: Descriptor, pos: nat)
    requires NoWrap(d) && pos < Strlen(d)
    ensures Offset(d, pos) + 1 + FieldSize(d[pos]) <= PacketSize(d)
  {
    var total := WidthSum(d, Strlen(d));
    WidthSumGrows(d, pos + 1, Strlen(d));
    SmallMod256(WidthSum(d, pos));
    SmallMod256(1 + total);
  }

  /** A descriptor whose characters are all the same tag has width sum n times that tag's width. */
  lemma {:induction false} WidthSumUniform(d: seq<char>, tag: char, n: nat)
    requires n <= |d|
    requires forall i :: 0 <= i < |d| ==> d[i] == tag
    ensures WidthSum(d, n) == n * FieldSize(tag)
  {
    if n > 0 {
      WidthSumUniform(d, tag, n - 1);
    }
  }

  /** The width sum of the first n fields depends only on those fields. */
  lemma {:induction false} WidthSumOfPrefix(d: seq<char>, m: nat, n: nat)
    requires n <= m <= |d|
    ensures WidthSum(d, n) == WidthSum(d[..m], n)
  {
    if n > 0 {
      WidthSumOfPrefix(d, m, n - 1);
      assert d[..m][n - 1] == d[n - 1];
    }
  }

  /**
   The `uint8_t` accumulator of `size()` wraps: 64 four-byte fields make a 257-byte
   frame, which `size()` reports as a single byte.
   */
  lemma SizeWrapsAt256()
    ensures var d: Descriptor := seq(64, _ => INT); PacketSize(d) == 1
  {
    var d: Descriptor := seq(64, _ => INT);
    assert Strlen(d) == 64 by {
      StrlenWithoutTerminator(d);
    }
    WidthSumUniform(d, INT, 64);
  }

  /** A descriptor without a `'\0'` is measured in full by `strlen`. */
  lemma StrlenWithoutTerminator(d: seq<char>)
    requires forall i :: 0 <= i < |d| ==> d[i] != '\0'
    ensures Strlen(d) == |d|
  {
  }

  /** Descriptors in the tag alphabet only. */
  predicate WellTyped(d: seq<char>)
  {
    forall i :: 0 <= i < |d| ==> IsTag(d[i])
  }

  /** A well-typed descriptor contains no terminator, so `size()` covers every field. */
  lemma WellTypedStrlen(d: seq<char>)
    requires WellTyped(d)
    ensures Strlen(d) == |d|
  {
    StrlenWithoutTerminator(d);
  }

  /** The least value a C variable of type t can hold. */
  function MinValue(t: CType): int
  {
    match t
    case Int8 => -0x80
    case Int16 => -0x8000
    case Int32 => -0x8000_0000
    case _ => 0
  }

  /** One more than the greatest value a C variable of type t can hold. */
  function ValueLimit(t: CType): int
  {
    match t
    case Char | UInt8 => 0x100
    case Int8 => 0x80
    case UInt16 => 0x1_0000
    case Int16 => 0x8000
    case UInt32 | Float => 0x1_0000_0000
    case Int32 => 0x8000_0000
  }

  /** The values a C variable of type t can hold. */
  predicate InRange(t: CType, v: int)
  {
    MinValue(t) <= v < ValueLimit(t)
  }

  /** The C limits are those of a two's-complement or unsigned word of the type's size. */
  lemma WordRange(t: CType)
    ensures IsSigned(t) ==> MinValue(t) == -Half(SizeOf(t)) && ValueLimit(t) == Half(SizeOf(t))
    ensures !IsSigned(t) ==> MinValue(t) == 0 && ValueLimit(t) == Pow256(SizeOf(t))
  {
    assert Pow256(1) == 0x100;
    assert Pow256(2) == 0x1_0000;
    assert Pow256(3) == 0x100_0000;
    assert Pow256(4) == 0x1_0000_0000;
  }

  /**
   The value `memcpy` leaves in a variable of type t, little-endian, when it copies
   the bytes bs over it. A `char` is read as its unsigned byte and a `float` as its
   raw 32-bit word.
   */
  function Decode(t: CType, bs: seq<byte>): (v: int)
    requires |bs| == SizeOf(t)
    ensures InRange(t, v)
  {
    WordRange(t);
    var u := FromLittleEndian(bs);
    if IsSigned(t) then ToSigned(u, SizeOf(t)) else u
  }

  /** The host-side bytes for a value of type t: its little-endian two's-complement representation. */
  function Encode(t: CType, v: int): (bs: seq<byte>)
    requires InRange(t, v)
    ensures |bs| == SizeOf(t)
    ensures Decode(t, bs) == v
  {
    WordRange(t);
    if IsSigned(t) then ToLittleEndian(FromSigned(v, SizeOf(t)), SizeOf(t))
    else ToLittleEndian(v, SizeOf(t))
  }

  /** Every byte string of the type's width is the encoding of what it decodes to. */
  lemma EncodeDecode(t: CType, bs: seq<byte>)
    requires |bs| == SizeOf(t)
    ensures Encode(t, Decode(t, bs)) == bs
  {
    LittleEndianBytesRoundTrip(bs);
    if IsSigned(t) {
      SignedWordRoundTrip(FromLittleEndian(bs), SizeOf(t));
    }
  }

  /**
   `getArg<T>(pos)`: the value of type t held by the `sizeof(T)` bytes that start just
   past the command byte at the field's offset. The type is the handler's choice and
   is not checked against the descriptor.
   */
  function GetArg(d: Descriptor, buf: seq<byte>, pos: nat, t: CType): (v: int)
    requires pos <= |d|
    requires Offset(d, pos) + 1 + SizeOf(t) <= |buf|
    ensures InRange(t, v)
  {
    var start := Offset(d, pos) + 1;
    Decode(t, buf[start .. start + SizeOf(t)])
  }

  /** A field whose bytes hold the encoding of v reads back as v. */
  lemma GetArgOfEncoded(d: Descriptor, buf: seq<byte>, pos: nat, t: CType, v: int)
    requires pos <= |d| && Offset(d, pos) + 1 + SizeOf(t) <= |buf| && InRange(t, v)
    requires buf[Offset(d, pos) + 1 .. Offset(d, pos) + 1 + SizeOf(t)] == Encode(t, v)
    ensures GetArg(d, buf, pos, t) == v
  {
  }

  /** `getArg` depends on exactly the `sizeof(T)` bytes starting at `Offset(d, pos) + 1`. */
  lemma GetArgReadsOnlyItsBytes(d: Descriptor, buf: seq<byte>, buf': seq<byte>, pos: nat, t: CType)
    requires pos <= |d|
    requires Offset(d, pos) + 1 + SizeOf(t) <= |buf| && Offset(d, pos) + 1 + SizeOf(t) <= |buf'|
    requires forall j :: Offset(d, pos) + 1 <= j < Offset(d, pos) + 1 + SizeOf(t) ==> buf[j] == buf'[j]
    ensures GetArg(d, buf, pos, t) == GetArg(d, buf', pos, t)
  {
    var start := Offset(d, pos) + 1;
    assert buf[start .. start + SizeOf(t)] == buf'[start .. start + SizeOf(t)];
  }

  /** The C type a tag declares. */
  function TagType(tag: char): (t: CType)
    requires IsTag(tag)
    ensures SizeOf(t) == FieldSize(tag)
  {
    FieldSizeIsDeclaredWidth(tag);
    DeclaredType(tag).value
  }

  /** One value per field, each within the range of the field's declared type. */
  predicate ArgsFit(d: seq<char>, vals: seq<int>)
  {
    && WellTyped(d)
    && |vals| == |d|
    && forall i :: 0 <= i < |d| ==> InRange(TagType(d[i]), vals[i])
  }

  /** The first n chunks of a sequence of chunks, joined in order. */
  function Concat<T>(chunks: seq<seq<T>>, n: nat): seq<T>
    requires n <= |chunks|
  {
    if n == 0 then [] else Concat(chunks, n - 1) + chunks[n - 1]
  }

  /** In a concatenation, chunk i sits right after the chunks before it. */
  lemma {:induction false} ChunkAt<T>(chunks: seq<seq<T>>, n: nat, i: nat)
    requires i < n <= |chunks|
    ensures |Concat(chunks, i)| + |chunks[i]| <= |Concat(chunks, n)|
    ensures Concat(chunks, n)[|Concat(chunks, i)| .. |Concat(chunks, i)| + |chunks[i]|] == chunks[i]
    decreases n
  {
    if i < n - 1 {
      ChunkAt(chunks, n - 1, i);
      SliceOfLeftPart(Concat(chunks, n - 1), chunks[n - 1], |Concat(chunks, i)|, |Concat(chunks, i)| + |chunks[i]|);
    } else {
      SliceOfRightPart(Concat(chunks, i), chunks[i]);
    }
  }

  /** The bytes a host sends for each field: its value's encoding at the declared type. */
  function FieldEncodings(d: seq<char>, vals: seq<int>): (fs: seq<seq<byte>>)
    requires ArgsFit(d, vals)
    ensures |fs| == |d|
    ensures forall i :: 0 <= i < |d| ==> |fs[i]| == FieldSize(d[i])
  {
    seq(|d|, i requires 0 <= i < |d| => Encode(TagType(d[i]), vals[i]))
  }

  /** The encodings of the first n fields take exactly the width `fieldSize` gives them. */
  lemma {:induction false} ConcatWidth(d: seq<char>, vals: seq<int>, n: nat)
    requires ArgsFit(d, vals) && n <= |d|
    ensures |Concat(FieldEncodings(d, vals), n)| == WidthSum(d, n)
  {
    if n > 0 {
      ConcatWidth(d, vals, n - 1);
    }
  }

  /** The argument bytes a host sends: every field's encoding, in order. */
  function EncodeArgs(d: seq<char>, vals: seq<int>): (bs: seq<byte>)
    requires ArgsFit(d, vals)
    ensures |bs| == WidthSum(d, |d|)
  {
    ConcatWidth(d, vals, |d|);
    Concat(FieldEncodings(d, vals), |d|)
  }

  /** A whole frame as the host sends it: the command byte, then every field. */
  function EncodeFrame(k: byte, d: seq<char>, vals: seq<int>): (f: seq<byte>)
    requires ArgsFit(d, vals)
    ensures |f| == 1 + WidthSum(d, |d|)
    ensures f[0] == k
  {
    [k] + EncodeArgs(d, vals)
  }

  /** Field i of the encoded arguments occupies the bytes from its offset to the next one. */
  lemma EncodedFieldAt(d: seq<char>, vals: seq<int>, i: nat)
    requires ArgsFit(d, vals) && i < |d|
    ensures WidthSum(d, i + 1) <= WidthSum(d, |d|)
    ensures EncodeArgs(d, vals)[WidthSum(d, i) .. WidthSum(d, i + 1)] == Encode(TagType(d[i]), vals[i])
  {
    var fs := FieldEncodings(d, vals);
    var field := Encode(TagType(d[i]), vals[i]);
    assert fs[i] == field && |field| == FieldSize(d[i]);
    ConcatWidth(d, vals, i);
    assert WidthSum(d, i + 1) == |Concat(fs, i)| + |fs[i]|;
    ChunkAt(fs, |d|, i);
    assert EncodeArgs(d, vals) == Concat(fs, |d|);
  }

  /** In a buffer that starts with an encoded frame, field pos's bytes are its value's encoding. */
  lemma FrameFieldBytes(k: byte, d: seq<char>, vals: seq<int>, rest: seq<byte>, pos: nat)
    requires ArgsFit(d, vals) && pos < |d|
    ensures WidthSum(d, pos + 1) + 1 <= |EncodeFrame(k, d, vals) + rest|
    ensures (EncodeFrame(k, d, vals) + rest)[WidthSum(d, pos) + 1 .. WidthSum(d, pos + 1) + 1]
            == Encode(TagType(d[pos]), vals[pos])
  {
    EncodedFieldAt(d, vals, pos);
    SliceAfterHead(k, EncodeArgs(d, vals), rest, WidthSum(d, pos), WidthSum(d, pos + 1));
  }

  /** The buffer holds the encoding of field pos's value just past the command byte and the fields before it. */
  predicate HoldsField(buf: seq<byte>, d: seq<char>, vals: seq<int>, pos: nat)
    requires ArgsFit(d, vals) && pos < |d|
  {
    var start := WidthSum(d, pos) + 1;
    && start + FieldSize(d[pos]) <= |buf|
    && buf[start .. start + FieldSize(d[pos])] == Encode(TagType(d[pos]), vals[pos])
  }

  /** The buffer holds every field of a frame at its place. */
  predicate Carries(buf: seq<byte>, d: seq<char>, vals: seq<int>)
    requires ArgsFit(d, vals)
  {
    forall pos :: 0 <= pos < |d| ==> HoldsField(buf, d, vals, pos)
  }

  /** A buffer that starts with an encoded frame carries that frame's fields. */
  lemma FrameCarriesFields(k: byte, d: seq<char>, vals: seq<int>, rest: seq<byte>)
    requires ArgsFit(d, vals)
    ensures Carries(EncodeFrame(k, d, vals) + rest, d, vals)
  {
    forall pos | 0 <= pos < |d|
      ensures HoldsField(EncodeFrame(k, d, vals) + rest, d, vals, pos)
    {
      FrameFieldBytes(k, d, vals, rest, pos);
    }
  }

  /**
   Round trip: in a buffer that carries a frame's fields, `getArg` with the declared
   type gives back every value that was encoded.
   */
  lemma ArgRoundTrip(buf: seq<byte>, d: Descriptor, vals: seq<int>, pos: nat)
    requires ArgsFit(d, vals) && NoWrap(d) && Carries(buf, d, vals) && pos < |d|
    ensures Offset(d, pos) + 1 + SizeOf(TagType(d[pos])) <= |buf|
    ensures GetArg(d, buf, pos, TagType(d[pos])) == vals[pos]
  {
    var t := TagType(d[pos]);
    var start := WidthSum(d, pos) + 1;
    assert Offset(d, pos) + 1 == start by {
      WellTypedStrlen(d);
      WidthSumGrows(d, pos, |d|);
    }
    assert HoldsField(buf, d, vals, pos);
    GetArgOfEncoded(d, buf, pos, t, vals[pos]);
  }

  /** `getArg` with the declared type of field pos reads `v` from the buffer. */
  predicate ReadsBack(d: Descriptor, buf: seq<byte>, pos: nat, v: int)
    requires pos < |d| && IsTag(d[pos])
  {
    && Offset(d, pos) + 1 + SizeOf(TagType(d[pos])) <= |buf|
    && GetArg(d, buf, pos, TagType(d[pos])) == v
  }

  /** The round trip for a buffer that starts with an encoded frame. */
  lemma FrameArgRoundTrip(k: byte, d: Descriptor, vals: seq<int>, rest: seq<byte>, pos: nat)
    requires ArgsFit(d, vals) && NoWrap(d) && pos < |d|
    ensures Offset(d, pos) + 1 + SizeOf(TagType(d[pos])) <= |EncodeFrame(k, d, vals) + rest|
    ensures GetArg(d, EncodeFrame(k, d, vals) + rest, pos, TagType(d[pos])) == vals[pos]
  {
    FrameCarriesFields(k, d, vals, rest);
    ArgRoundTrip(EncodeFrame(k, d, vals) + rest, d, vals, pos);
  }
}

=== FILE: scenarios.dfy ===
/** Concrete runs of the dispatcher and the decoder. */
module Scenarios {
  import opened Seqs
  import opened Bytes
  import opened Tags
  import opened Packet
  import opened Commander
  import opened Framing

  /** The two-field descriptor `"BH"`: a `uint8_t` then a `uint16_t`, four bytes on the wire. */
  lemma SizeOfBH()
    ensures PacketSize("BH") == 4
    ensures Offset("BH", 0) == 0 && Offset("BH", 1) == 1
  {
    StrlenWithoutTerminator("BH");
  }

  /** The bytes a host sends to call command 0 with `"BH"` arguments 7 and 10000 (0x2710, little-endian). */
  const BHFrame: seq<byte> := [0x00, 0x07, 0x10, 0x27]

  /** Command 0 registered with `"BH"`: the four bytes dispatch it once and reset the buffer. */
  lemma DispatchBH()
    ensures AddCmd(Init(), "BH") == (Init().(cmds := ["BH"]), true)
    ensures var c := Init().(cmds := ["BH"]);
      Feed(c, BHFrame) == (c, [Dispatch(0, Partial(BHFrame).buf)])
  {
    var c := Init().(cmds := ["BH"]);
    AppendEmpty<Descriptor>(["BH"]);
    SizeOfBH();
    FeedOneFrame(c, BHFrame);
    assert c.(frame := ResetBuffer()) == c;
  }

  /** The handler of that dispatch reads its fields back as 7 and 10000. */
  lemma DecodeBH()
    ensures GetArg("BH", Partial(BHFrame).buf, 0, UInt8) == 7
    ensures GetArg("BH", Partial(BHFrame).buf, 1, UInt16) == 10000
  {
    SizeOfBH();
    var buf := Partial(BHFrame).buf;
    assert buf[1 .. 2] == [0x07] by {
      assert buf[..4] == BHFrame;
    }
    assert buf[2 .. 4] == [0x10, 0x27] by {
      assert buf[..4] == BHFrame;
    }
    assert FromLittleEndian([0x07]) == 7 by {
      assert [0x07][1..] == [];
    }
    assert FromLittleEndian([0x10, 0x27]) == 10000 by {
      assert [0x10, 0x27][1..] == [0x27];
      assert [0x27][1..] == [];
    }
  }

  /** With two commands registered, the byte 0x05 is dropped: no dispatch, buffer reset. */
  lemma InvalidIndexDropped(d0: Descriptor, d1: Descriptor)
    ensures var c := AddCmd(AddCmd(Init(), d0).0, d1).0;
      Feed(c, [0x05]) == (c, [])
  {
    var c := AddCmd(AddCmd(Init(), d0).0, d1).0;
    assert |c.cmds| == 2;
    BadByteThenFrame(c, 0x05, []);
    assert [0x05] + [] == [0x05];
  }

  /** The byte 0xFF never dispatches a handler, however many commands are registered. */
  lemma SentinelNeverDispatches(c: Commander)
    requires IsReset(c.frame)
    ensures Feed(c, [0xFF]) == (c, [])
  {
    BadByteThenFrame(c, 0xFF, []);
    assert [0xFF] + [] == [0xFF];
  }

  /** With two commands registered, the byte 0x02 is taken as a command index. */
  lemma IndexEqualToCountTaken(d0: Descriptor, d1: Descriptor)
    ensures var c := AddCmd(AddCmd(Init(), d0).0, d1).0;
      Feed(c, [0x02]) == (c.(frame := Undefined(UnregisteredSlot)), [])
  {
    var c := AddCmd(AddCmd(Init(), d0).0, d1).0;
    assert [0x02] == [] + [0x02];
    FeedSnoc(c, [], 0x02);
    assert Feed(c, []) == (c, []);
    LeadByteEqualToCountAccepted(c, 0x02);
  }

  /** An `'h'` field holding -1200 travels as 0x50 0xFB and decodes back to -1200. */
  lemma SignedShortRoundTrip()
    ensures TagType(SHORT) == Int16
    ensures Encode(Int16, -1200) == [0x50, 0xFB]
    ensures Decode(Int16, [0x50, 0xFB]) == -1200
  {
    assert Pow256(2) == 65536;
    assert FromSigned(-1200, 2) == 64336;
    var bs := ToLittleEndian(64336, 2);
    assert bs == [64336 % 256] + ToLittleEndian(64336 / 256, 1);
    assert ToLittleEndian(251, 1) == [251] + ToLittleEndian(0, 0);
  }

  /**
   `addCmd` accepts a descriptor whose frame is longer than the buffer: thirteen
   `'L'` fields make a 53-byte frame, and nothing checks it against `BUFSIZE`.
   */
  lemma OversizedDescriptorAccepted()
    ensures var d: Descriptor := seq(13, _ => ULONG);
      && PacketSize(d) == 53 > BUFSIZE
      && AddCmd(Init(), d).1
  {
    var d: Descriptor := seq(13, _ => ULONG);
    StrlenWithoutTerminator(d);
    WidthSumUniform(d, ULONG, 13);
  }

  /**
   255 `'B'` fields make a 256-byte frame, which `size()` reports as 0. The index is
   at least 1 after every store, so the command never dispatches and its 51st byte
   overruns the buffer.
   */
  lemma ZeroSizeOverruns(f: seq<byte>)
    requires |f| == BUFSIZE + 1 && f[0] == 0
    ensures var d: Descriptor := seq(255, _ => UCHAR);
      && PacketSize(d) == 0
      && AddCmd(Init(), d) == (Init().(cmds := [d]), true)
      && var c := Init().(cmds := [d]);
         Feed(c, f) == (c.(frame := Undefined(BufferOverrun)), [])
  {
    var d: Descriptor := seq(255, _ => UCHAR);
    StrlenWithoutTerminator(d);
    WidthSumUniform(d, UCHAR, 255);
    AppendEmpty<Descriptor>([d]);
    OversizedFrameOverruns(Init().(cmds := [d]), f);
  }

  /**
   64 `'i'` fields then 5 `'B'` fields make a 262-byte frame whose `size()` wraps to
   6. The frame does not fit, but its `size()` does, so the buffer bound still holds:
   the dispatcher completes the command after 6 bytes.
   */
  lemma WrappedSizeStaysInBuffer(input: seq<byte>)
    ensures var d: Descriptor := seq(69, i => if i < 64 then INT else UCHAR);
      && PacketSize(d) == 6 && !Fits(d) && SizeFits(d)
      && var c := Init().(cmds := [d]);
         Feed(c, input).0.frame != Undefined(BufferOverrun)
  {
    var d: Descriptor := seq(69, i => if i < 64 then INT else UCHAR);
    StrlenWithoutTerminator(d);
    WidthSumUniform(d[..64], INT, 64);
    assert WidthSum(d, 64) == WidthSum(d[..64], 64) by {
      WidthSumOfPrefix(d, 64, 64);
    }
    assert WidthSum(d, 65) == WidthSum(d, 64) + 1 by { assert d[64] == UCHAR; }
    assert WidthSum(d, 66) == WidthSum(d, 65) + 1 by { assert d[65] == UCHAR; }
    assert WidthSum(d, 67) == WidthSum(d, 66) + 1 by { assert d[66] == UCHAR; }
    assert WidthSum(d, 68) == WidthSum(d, 67) + 1 by { assert d[67] == UCHAR; }
    assert WidthSum(d, 69) == WidthSum(d, 68) + 1 by { assert d[68] == UCHAR; }
    var c := Init().(cmds := [d]);
    FeedNeverOverruns(c, input);
  }
}

=== FILE: seqs.dfy ===
/** Identities of sequence concatenation and slicing, stated once and used by the proofs. */
module Seqs {

  lemma AppendEmpty<T>(s: seq<T>)
    ensures [] + s == s && s + [] == s
  {
  }

  lemma AppendAssoc<T>(a: seq<T>, b: seq<T>, c: seq<T>)
    ensures a + (b + c) == (a + b) + c
  {
  }

  lemma SplitLast<T>(s: seq<T>)
    requires |s| > 0
    ensures s == s[..|s| - 1] + [s[|s| - 1]]
  {
  }

  lemma PrefixOfSnoc<T>(s: seq<T>, x: T)
    ensures (s + [x])[..|s|] == s
  {
  }

  lemma PrefixSnoc<T>(s: seq<T>, j: nat)
    requires 0 < j <= |s|
    ensures s[..j - 1] + [s[j - 1]] == s[..j]
  {
  }

  lemma SliceSnoc<T>(s: seq<T>, i: nat, j: nat)
    requires i < j <= |s|
    ensures s[i..j] == s[i..j - 1] + [s[j - 1]]
  {
  }

  lemma SplitAt<T>(s: seq<T>, i: nat)
    requires i <= |s|
    ensures s[..i] + s[i..] == s
  {
  }

  lemma PrefixJoin<T>(s: seq<T>, j: nat, k: nat)
    requires j <= k <= |s|
    ensures s[..j] + s[j..k] == s[..k]
  {
  }

  lemma SliceOfLeftPart<T>(a: seq<T>, b: seq<T>, i: nat, j: nat)
    requires i <= j <= |a|
    ensures (a + b)[i .. j] == a[i .. j]
  {
  }

  lemma SliceOfRightPart<T>(a: seq<T>, b: seq<T>)
    ensures (a + b)[|a| .. |a| + |b|] == b
  {
  }

  lemma SliceAfterHead<T>(x: T, a: seq<T>, b: seq<T>, i: nat, j: nat)
    requires i <= j <= |a|
    ensures ([x] + a + b)[i + 1 .. j + 1] == a[i .. j]
  {
    assert ([x] + a + b)[i + 1 .. j + 1] == (a + b)[i .. j];
  }
}

=== FILE: tags.dfy ===
/**
 The one-character type tags a command's argument descriptor is written in, the C
 type the library header declares for each tag, and the width switch of
 `uPacket::fieldSize`.
 */
module Tags {
  import opened Options

  const CHAR: char := 'c'
  const SCHAR: char := 'b'
  const UCHAR: char := 'B'
  const SHORT: char := 'h'
  const USHORT: char := 'H'
  const INT: char := 'i'
  const UINT: char := 'I'
  const LONG: char := 'l'
  const ULONG: char := 'L'
  const FLOAT: char := 'f'

  /** The C types the header pairs with the tags. */
  datatype CType = Char | Int8 | UInt8 | Int16 | UInt16 | Int32 | UInt32 | Float

  /** `sizeof` of each type on the targets (char is one byte, float is IEEE single). */
  function SizeOf(t: CType): nat
  {
    match t
    case Char | Int8 | UInt8 => 1
    case Int16 | UInt16 => 2
    case Int32 | UInt32 | Float => 4
  }

  /** Whether `getArg` reads the type as a two's-complement signed integer. */
  predicate IsSigned(t: CType)
  {
    t == Int8 || t == Int16 || t == Int32
  }

  /** The C type paired with each tag by the header's `u*_T` definitions; None for any other character. */
  function DeclaredType(tag: char): Option<CType>
  {
    if tag == CHAR then Some(Char)
    else if tag == SCHAR then Some(Int8)
    else if tag == UCHAR then Some(UInt8)
    else if tag == SHORT then Some(Int16)
    else if tag == USHORT then Some(UInt16)
    else if tag == INT then Some(Int32)
    else if tag == UINT then Some(UInt32)
    else if tag == LONG then Some(Int32)
    else if tag == ULONG then Some(UInt32)
    else if tag == FLOAT then Some(Float)
    else None
  }

  /** The byte width `fieldSize` assigns to a tag: 1, 2 or 4. */
  function FieldSize(tag: char): (w: nat)
    ensures w == 1 || w == 2 || w == 4
  {
    match tag
    case 'c' => 1
    case 'b' => 1
    case 'B' => 1
    case 'h' => 2
    case 'H' => 2
    case 'i' => 4
    case 'I' => 4
    case 'l' => 4
    case 'L' => 4
    case 'f' => 4
    case _ => 1
  }

  /**
   The width `fieldSize` gives a tag is the size of the C type the header declares
   for it, and the fallback width 1 for a character that is not a tag.
   */
  lemma FieldSizeIsDeclaredWidth(tag: char)
    ensures DeclaredType(tag).Some? ==> FieldSize(tag) == SizeOf(DeclaredType(tag).value)
    ensures DeclaredType(tag).None? ==> FieldSize(tag) == 1
  {
  }

  /** A character the descriptor alphabet knows. */
  predicate IsTag(tag: char)
  {
    DeclaredType(tag).Some?
  }
}
